=== FILE: README.md ===
# Session store lifecycle — a Dafny model

This project models the session layer of Illuminate (an early Laravel
snapshot). An abstract `Store` loads a session payload at the start of a
request. It checks the payload for expiry, replaces a missing or expired one
with a fresh payload, and at the end of the request stamps the payload and
persists it through one of three back-ends:

- `CacheDrivenStore` puts the serialized payload into a key/value cache forever.
- `CookieStore` sends the serialized payload to the client in a payload cookie.
- `FileStore` is the cache-driven store over the file cache. It also sweeps
  expired session files off disk.

Everything is a pure function over immutable datatypes:

- `Session.Payload` is the payload array, projected onto its `id`, `data` and
  `last_activity` entries.
- `SessionStore.Store` is the store's state: payload, existence flag, lifetime,
  cookie options and back-end.
- `CacheDrivenStore.Cache` is the key/value cache plus, for the file cache, its
  directory and a map from path to last-modified time.
- A response is the sequence of cookies set on it, and a request is its cookie map.

Collaborators the model cannot see are passed in as parameters:

- the current time `now`;
- the id `createSessionID` would generate (`newId`, a 40-digit lower-case hex string);
- PHP's `serialize`/`unserialize`, as a `Serializer` holding two functions. The
  round-trip properties require `LeftInverse(z)`, which says `unserialize`
  undoes `serialize`.

Files: `wrappers.dfy` (Option, Result), `session.dfy` (payload, values,
serializer, errors), `http.dfy` (cookies, `setCookie`), `cache_driven_store.dfy`,
`cookie_store.dfy`, `file_store.dfy`, `store.dfy` (the abstract store and
back-end dispatch), `lifecycle.dfy` (whole request cycles).

## Behaviour of the code as written

- `retrieveSession` of the cache-driven store returns the cached string without
  unserializing it (src/Illuminate/Session/CacheDrivenStore.php:31 against :43).
  `isExpired` declares an `array` parameter, so `start` after a cache hit stops
  with PHP's argument-type error. `Start` returns `Failure(NotAnArray(..))`.
  `Lifecycle.CacheStartAfterFinishFails` shows that a cache-driven store
  therefore cannot read back a session it wrote itself.
- The same type check applies to the cookie store. When the id cookie is present
  but the payload cookie is missing or cannot be decoded, `unserialize` yields
  `false`, and `start` fails rather than starting a fresh session. A payload
  cookie holding a serialized `null` unserializes to `null`, and `start` then
  begins a fresh session (`Lifecycle.NullPayloadCookieStartsFresh`).
- A payload without `last_activity` reads it as 0, because PHP turns `null` into
  0 in arithmetic. It is expired as soon as `now > lifetime * 60`.
- `$session` is never assigned when there is no id cookie (Store.php:47-52). It
  is read as `null`, which starts a fresh session.

Three calls in the code cannot succeed as written. The model gives each the
behaviour its surroundings call for; "## Left out" records each one.

## Model

| member | source | states |
|---|---|---|
| `SessionStore.New` | src/Illuminate/Session/Store.php:21-35 | a new store exists = true, has a lifetime of 120 minutes, cookie name 'illuminate_session' and no other cookie option, and no payload yet |
| `SessionStore.GetCookieOption` | src/Illuminate/Session/Store.php:155-158 | the value stored for the option, or null for an option never set |
| `SessionStore.CookieName` | src/Illuminate/Session/Store.php:45 | the session cookie's name is the 'name' option when it is a string |
| `SessionStore.SetCookieOption` | src/Illuminate/Session/Store.php:167-170 | afterwards getCookieOption(o) = v; every other option and all other state unchanged |
| `SessionStore.SetLifetime` | src/Illuminate/Session/Store.php:178-181 | only the lifetime changes |
| `SessionStore.FreshPayload` | src/Illuminate/Session/Store.php:67-72 | the fresh payload has the generated 40-character id, data = exactly {':old:' ↦ [], ':new:' ↦ []}, and no last_activity |
| `SessionStore.IsExpired` | src/Illuminate/Session/Store.php:94-97 | a payload is expired iff now lies more than lifetime·60 seconds after its last activity, taken as 0 when missing |
| `Lifecycle.ExpiryBoundary` | src/Illuminate/Session/Store.php:94-97 | exactly lifetime·60 seconds after last activity a session is live; one second later it is expired |
| `Lifecycle.ExpiryMonotone` | src/Illuminate/Session/Store.php:94-97 | an expired payload stays expired as time advances |
| `Lifecycle.LifetimeDecidesAdoption` | src/Illuminate/Session/Store.php:52-59 | after setLifetime(m), start adopts a retrieved array exactly when it is live under m minutes, and otherwise starts fresh |
| `Lifecycle.NeverFinishedPayload` | src/Illuminate/Session/Store.php:96 | a payload with no last_activity is expired iff now > lifetime·60 |
| `SessionStore.Retrieve` | src/Illuminate/Session/Store.php:49 | cache and file stores answer the string stored under the id, as is, or null when there is no live entry; the cookie store answers false without a payload cookie, otherwise the PHP value the cookie unserializes to (null included) |
| `SessionStore.Fetch` | src/Illuminate/Session/Store.php:45-50 | no id cookie means no retrieval (null); otherwise retrieval is keyed by the cookie's value |
| `SessionStore.Start` | src/Illuminate/Session/Store.php:43-60 | no cookie, or a null or expired retrieval: exists = false and a fresh payload with the new id. A live array: adopted verbatim, exists unchanged. A string or false: the argument-type error. Configuration and storage are untouched |
| `SessionStore.Persist` | src/Illuminate/Session/Store.php:113-120 | on the cache and file back-ends, serialize(payload) is stored forever under the id (null read as the empty key), every other entry and the driver are kept, and the response is untouched. On the cookie store, the payload cookie holding serialize(payload) is set on the response, replacing a same-named cookie, and the store is unchanged |
| `SessionStore.SessionId` | src/Illuminate/Session/Store.php:132-135 | the id entry of the payload, or null when it has none |
| `SessionStore.SessionCookie` | src/Illuminate/Session/Store.php:124 | the cookie finish sets last: named by the 'name' option, holding the session id, or the empty string when there is none |
| `SessionStore.Finish` | src/Illuminate/Session/Store.php:105-125 | last_activity := now with id and data unchanged. Exactly one persistence call, keyed by the current id: update iff exists, else create. Then the session cookie is set on the response after the persisted cookies |
| `SessionStore.RegenerateSession` | src/Illuminate/Session/Store.php:142-147 | exists = false; only the id is replaced, by the new 40-character one, which is returned; data, last_activity and configuration are untouched |
| `SessionStore.SetPayloadName` | src/Illuminate/Session/CookieStore.php:78-81 | a cookie store's payload name changes and nothing else does |
| `SessionStore.NewFileStore` | src/Illuminate/Session/FileStore.php:11-19 | a file store is built iff the cache is the file cache, otherwise InvalidArgument("File session driver requires file cache.") |
| `CacheDrivenStore.Retrieve` | src/Illuminate/Session/CacheDrivenStore.php:29-32 | the entry stored under the id, as the raw string, or null when absent; never a decoded payload |
| `CacheDrivenStore.Create` | src/Illuminate/Session/CacheDrivenStore.php:41-44 | serialize(s) is stored under id with no expiry; no other key changes |
| `CacheDrivenStore.Update` | src/Illuminate/Session/CacheDrivenStore.php:53-56 | the same write as create: serialize(s) under id forever, nothing else changes |
| `CacheDrivenStore.UpdateIsCreate` | src/Illuminate/Session/CacheDrivenStore.php:53-56 | update and create have the same effect |
| `CacheDrivenStore.UpdateIdempotent` | src/Illuminate/Session/CacheDrivenStore.php:43-55 | repeating an update with the same arguments changes nothing |
| `CacheDrivenStore.RetrieveAfterCreate` | src/Illuminate/Session/CacheDrivenStore.php:29-44 | retrieve after create on the same id yields serialize(s), at any time, and not s |
| `CookieStore.New` | src/Illuminate/Session/CookieStore.php:20 | the default payload cookie name is 'illuminate_payload' |
| `CookieStore.SetPayloadName` | src/Illuminate/Session/CookieStore.php:78-81 | the payload cookie name becomes the one given |
| `CookieStore.Retrieve` | src/Illuminate/Session/CookieStore.php:39-42 | unserialize of the payload cookie: false when the cookie is missing, otherwise the value it unserializes to; null exactly when the cookie holds a serialized null |
| `CookieStore.RetrieveIgnoresId` | src/Illuminate/Session/CookieStore.php:39-42 | the id argument does not affect retrieval |
| `CookieStore.Create` | src/Illuminate/Session/CookieStore.php:52-57 | one cookie named by the payload name and holding serialize(s) is set on the response. It is appended when new; other cookies are kept; names stay unique |
| `CookieStore.Update` | src/Illuminate/Session/CookieStore.php:67-70 | sets the same payload cookie as create |
| `CookieStore.UpdateIsCreate` | src/Illuminate/Session/CookieStore.php:67-70 | update delegates to create with the same arguments |
| `CookieStore.RetrieveAfterCreate` | src/Illuminate/Session/CookieStore.php:39-57 | a client returning the cookies create set yields the original payload (given unserialize ∘ serialize = id) |
| `Session.Unserialize` | src/Illuminate/Session/CookieStore.php:41 | unserialize(null) is false; a present value yields the PHP value it holds, and null exactly when it holds a serialized null |
| `Session.UnserializeSerialize` | src/Illuminate/Session/CookieStore.php:41-54 | reading back a serialized payload gives it back |
| `Http.SetCookie` | src/Illuminate/Session/CookieStore.php:56 | setting a cookie on the response adds its name to the response's names; a cookie of a new name goes last |
| `Http.ReturnedUnique` | src/Illuminate/Session/CookieStore.php:41 | when the response's cookie names are unique, the client sends every cookie back with its own value |
| `Http.SetCookieContents` | src/Illuminate/Session/CookieStore.php:56 | afterwards the cookie is on the response, every cookie of another name is kept, nothing else is added, and names stay unique |
| `FileStore.New` | src/Illuminate/Session/FileStore.php:11-19 | succeeds iff the cache is the file cache; otherwise the invalid-argument error |
| `FileStore.RequiresFileStoreCache` | tests/FileStoreTest.php:15-19 | an array cache is refused |
| `FileStore.Sweep` | src/Illuminate/Session/FileStore.php:27-41 | exactly the files directly in the cache's directory with mtime < cutoff are deleted; every other file keeps its mtime. The model's cache entries are not tied to files and are left as they are |
| `FileStore.Swept` | src/Illuminate/Session/FileStore.php:27-41 | the filesystem after a sweep: every path except the expired files of the directory, with timestamps kept |
| `FileStore.SweepKeepsCutoff` | src/Illuminate/Session/FileStore.php:36 | a file whose mtime equals or exceeds the cutoff is kept |
| `FileStore.SweepOnlyTouchesDirectory` | src/Illuminate/Session/FileStore.php:29-31 | a file outside the directory listing is never touched |
| `FileStore.SweepIdempotent` | src/Illuminate/Session/FileStore.php:36-39 | a second sweep with the same cutoff deletes nothing |
| `FileStore.SweepMonotone` | src/Illuminate/Session/FileStore.php:36 | the files deleted with cutoff e1 ≤ e2 are a subset of those deleted with e2 |
| `FileStore.SweepCleansDirectory` | tests/FileStoreTest.php:22-37 | files with mtimes 1 and 9999999999, cutoff 500: exactly the first is deleted |
| `Lifecycle.UpdateCallsCreate` | src/Illuminate/Session/CookieStore.php:67-70 | on every back-end an update persists exactly as a create would |
| `Lifecycle.FinishIgnoresExistenceForEffect` | tests/CookieStoreTest.php:38-47 | finish leaves the same storage and response whether it updates or creates |
| `Lifecycle.FinishOnCache` | src/Illuminate/Session/Store.php:107-124 | on a cache store finish writes serialize(stamped payload) under the id forever and sets only the session cookie |
| `Lifecycle.FinishOnCookieStore` | src/Illuminate/Session/Store.php:107-124 | on a cookie store finish sets exactly [payload cookie holding serialize(stamped session), session cookie], in that order, and leaves the store's settings alone |
| `Lifecycle.CookieFinishPayloadDecodes` | tests/CookieStoreTest.php:20-35 | finish sets two cookies, the first named by the payload name, and it decodes to the session with last_activity = now |
| `Lifecycle.StartAdoptsCookiePayload` | tests/CookieStoreTest.php:9-17 | a request carrying a live serialized payload starts with that payload |
| `Lifecycle.NullPayloadCookieStartsFresh` | src/Illuminate/Session/Store.php:45-56 | on a cookie store, a payload cookie holding a serialized null starts a fresh session with exists = false |
| `Lifecycle.CookieFinishReturns` | src/Illuminate/Session/Store.php:107-124 | the client returns exactly two cookies after a cookie-store finish: the payload name with serialize(stamped session), and the session cookie name with the id |
| `Lifecycle.CookieSessionRoundTrip` | src/Illuminate/Session/Store.php:21-124 | with a cookie store, the next request (within the lifetime, on a new store, which has exists = true) starts with the session finish stored, and the new store still has exists = true |
| `Lifecycle.CookieNameClash` | src/Illuminate/Session/Store.php:119-124 | if the payload cookie shares the session cookie's name, the session cookie replaces it |
| `Lifecycle.StartLooksUpCookieValue` | src/Illuminate/Session/Store.php:45-56 | start retrieves under the session cookie's value (the lookup tests/StoreTest.php:12 expects). A live cache entry there comes back unserialized (CacheDrivenStore.php:31) and gives the argument-type error; a miss gives a fresh session |
| `Lifecycle.CacheStartAfterFinishFails` | src/Illuminate/Session/CacheDrivenStore.php:31-43 | the request after a cache-store finish fails on the raw serialized string it retrieves |
| `Lifecycle.RegenerateThenFinishCreates` | src/Illuminate/Session/Store.php:142-147 | after regeneration finish creates (not updates) under the new id, with the old data, and sends the new id |

## Left out

- `SessionStore.Start`: on the fresh path the model builds the payload of Store.php:67-72. As written, `$this->createSession()` at Store.php:56 resolves to the concrete store's override (CacheDrivenStore.php:41, CookieStore.php:52), which requires a session array and more. So on every concrete store this call stops with a missing-argument error.
- `SessionStore.Finish`: on a cookie store the model passes the response to the store's `createSession`/`updateSession`, as tests/CookieStoreTest.php expects. As written, Store.php:115 and :119 pass only the id and the payload, while CookieStore.php:52 and :67 require the response as a third argument, so the call fails.
- `SessionStore.SessionCookie`: `createCookie`, called at Store.php:124, is not defined in any class of the code, so as written `finish` fails at that call. The model sets a cookie named by the 'name' option holding the session id.
- `Session.Payload`: the payload array is projected onto 'id', 'data' and 'last_activity'. 'id' is held only as a string and 'last_activity' only as an integer, whereas the program's own test payloads carry a numeric string such as '9999999999', which `isExpired`'s arithmetic treats like its integer value. A payload without 'data' reads as one with an empty 'data' array. Any other top-level entry of an array adopted by `start` is dropped, whereas PHP keeps it and `finish` would serialize it back.
- Flash data aging and the sweep lottery: in this code they are only placeholder comments (Store.php:111, 122), and there is no get/put/flash/reflash API.
- `createSessionID`'s shuffle, `time()` and SHA-1: the generated id and the current time are parameters. The id is assumed to be 40 lower-case hex digits.
- PHP `serialize`/`unserialize`: passed in as two functions; the round-trip lemmas assume `unserialize` undoes `serialize`. The encrypter used by the tests is not modelled.
- The cookie jar's and `createCookie`'s cookie attributes (expiry, path, domain, secure, httpOnly): cookies carry only a name and a value, and a response keeps at most one cookie per name.
- A `name` cookie option that is not a string is read as the empty cookie name; PHP's other array-key coercions are not modelled.
- A store that was never started holds an empty payload; PHP holds `null`, which `finish` turns into an array holding only 'last_activity'.
- The file cache's mapping from cache keys to files is not modelled: cache entries and the files `sweep` sees are kept independently. Races with concurrent writers are not modelled.
- `FileStore.Sweep`: a session whose file the sweep deletes stays readable through the model's cache entries, whereas in the program its record is gone, because the files are the file cache's session records.
- `Session.Unserialize`: besides null, false, strings and arrays, PHP's `unserialize` can yield integers, floats, `true` and objects. These are not represented. None of them is null or an array, so `start` would stop at the same type check as for a string.
- `getCookieJar` (a plain accessor), the constructors of the cache and cookie stores, and SessionServiceProvider.php: container wiring, event hooks and the CSRF filter.

=== FILE: cache_driven_store.dfy ===
/**
 * The cache-driven store: the serialized payload lives in a key/value cache,
 * under the session id, with no expiry of its own.
 */
module CacheDrivenStore {
  import opened Wrappers
  import opened Session

  /** One cache entry: the stored string and the time it stops being served, if any. */
  datatype Entry = Entry(value: string, expires: Option<int>)

  /**
   * The cache implementation behind the store. Only the file cache is told
   * apart: it keeps one file per record in `directory`, and `files` maps every
   * path of its filesystem to that file's last-modified time.
   */
  datatype Driver =
    | FileDriver(directory: string, files: map<string, int>)
    | OtherDriver(name: string)

  datatype Cache = Cache(driver: Driver, entries: map<string, Entry>)

  /** The cache's `get`: the value under `key` while it is live, otherwise nothing. */
  function Get(c: Cache, key: string, now: int): Option<string> {
    if key in c.entries && (c.entries[key].expires.None? || now < c.entries[key].expires.value)
    then Some(c.entries[key].value)
    else None
  }

  /** The cache's `forever`: store `value` under `key` with no expiry. */
  function Forever(c: Cache, key: string, value: string): Cache {
    c.(entries := c.entries[key := Entry(value, None)])
  }

  /**
   * `retrieveSession`: the cache's answer for `id`, handed back as it is. The
   * stored string is NOT unserialized, so this never yields a decoded payload.
   */
  function Retrieve(c: Cache, id: string, now: int): (r: Fetched)
    ensures r.Missing? || r.Raw?
    ensures id !in c.entries ==> r.Missing?
    ensures r.Raw? ==> id in c.entries && r.text == c.entries[id].value
    ensures id in c.entries && c.entries[id].expires.None? ==> r == Raw(c.entries[id].value)
  {
    match Get(c, id, now)
    case None => Missing
    case Some(text) => Raw(text)
  }

  /** `createSession($id, $session)`: write `serialize($session)` under `id`, forever. */
  function Create(c: Cache, id: string, s: Payload, z: Serializer): (r: Cache)
    ensures id in r.entries && r.entries[id] == Entry(z.encode(s), None)
    ensures r.entries.Keys == c.entries.Keys + {id}
    ensures forall k :: k in c.entries && k != id ==> r.entries[k] == c.entries[k]
    ensures r.driver == c.driver
  {
    Forever(c, id, z.encode(s))
  }

  /** `updateSession`: the same write as `createSession`. */
  function Update(c: Cache, id: string, s: Payload, z: Serializer): (r: Cache)
    ensures id in r.entries && r.entries[id] == Entry(z.encode(s), None)
    ensures r.entries.Keys == c.entries.Keys + {id}
    ensures forall k :: k in c.entries && k != id ==> r.entries[k] == c.entries[k]
    ensures r.driver == c.driver
  {
    Create(c, id, s, z)
  }

  lemma UpdateIsCreate(c: Cache, id: string, s: Payload, z: Serializer)
    ensures Update(c, id, s, z) == Create(c, id, s, z)
  {
  }

  lemma UpdateIdempotent(c: Cache, id: string, s: Payload, z: Serializer)
    ensures Update(Update(c, id, s, z), id, s, z) == Update(c, id, s, z)
  {
  }

  /**
   * Reading back what `createSession` wrote gives the serialized string, at
   * any time, and never the payload itself.
   */
  lemma RetrieveAfterCreate(c: Cache, id: string, s: Payload, z: Serializer, now: int)
    ensures Retrieve(Create(c, id, s, z), id, now) == Raw(z.encode(s))
    ensures Retrieve(Create(c, id, s, z), id, now) != Decoded(s)
  {
  }
}

=== FILE: cookie_store.dfy ===
/**
 * The cookie store: the whole serialized payload travels to the client in a
 * payload cookie of its own, next to the session-id cookie.
 */
module CookieStore {
  import opened Wrappers
  import opened Session
  import opened Http

  /** The store's own setting: the name of the payload cookie. */
  datatype Settings = Settings(payload: string)

  const DefaultPayloadName: string := "illuminate_payload"

  function New(): (r: Settings)
    ensures r.payload == DefaultPayloadName
  {
    Settings(DefaultPayloadName)
  }

  /** `setPayloadName`. */
  function SetPayloadName(st: Settings, name: string): (r: Settings)
    ensures r.payload == name
  {
    st.(payload := name)
  }

  /** The value of the request's payload cookie, if it has one. */
  function PayloadCookie(st: Settings, request: Request): Option<string> {
    if st.payload in request.cookies then Some(request.cookies[st.payload]) else None
  }

  /**
   * `retrieveSession`: `unserialize` of the payload cookie. The id is not
   * consulted; a missing cookie yields `false`, and a cookie holding a
   * serialized `null` yields `null`.
   */
  function Retrieve(st: Settings, id: string, request: Request, z: Serializer): (r: Fetched)
    ensures st.payload !in request.cookies ==> r == Unreadable
    ensures st.payload in request.cookies ==> r == z.decode(request.cookies[st.payload])
    ensures r.Missing? <==> st.payload in request.cookies && z.decode(request.cookies[st.payload]).Missing?
    ensures r.Decoded? ==> st.payload in request.cookies && z.decode(request.cookies[st.payload]) == Decoded(r.payload)
  {
    Unserialize(z, PayloadCookie(st, request))
  }

  /**
   * `createSession($id, $session, $response)`: set one cookie on the response,
   * named by the payload name and holding `serialize($session)`.
   */
  function Create(st: Settings, id: string, s: Payload, response: seq<Cookie>, z: Serializer): (r: seq<Cookie>)
    ensures Cookie(st.payload, z.encode(s)) in r
    ensures Names(r) == Names(response) + {st.payload}
    ensures forall d :: d in response && d.name != st.payload ==> d in r
    ensures forall d :: d in r ==> d == Cookie(st.payload, z.encode(s)) || d in response
    ensures st.payload !in Names(response) ==> r == response + [Cookie(st.payload, z.encode(s))]
    ensures UniqueNames(response) ==> UniqueNames(r)
  {
    SetCookieContents(response, Cookie(st.payload, z.encode(s)));
    SetCookie(response, Cookie(st.payload, z.encode(s)))
  }

  /** `updateSession`: delegates to `createSession` with the same arguments. */
  function Update(st: Settings, id: string, s: Payload, response: seq<Cookie>, z: Serializer): (r: seq<Cookie>)
    ensures Cookie(st.payload, z.encode(s)) in r
    ensures Names(r) == Names(response) + {st.payload}
    ensures st.payload !in Names(response) ==> r == response + [Cookie(st.payload, z.encode(s))]
    ensures UniqueNames(response) ==> UniqueNames(r)
  {
    Create(st, id, s, response, z)
  }

  lemma UpdateIsCreate(st: Settings, id: string, s: Payload, response: seq<Cookie>, z: Serializer)
    ensures Update(st, id, s, response, z) == Create(st, id, s, response, z)
  {
  }

  lemma RetrieveIgnoresId(st: Settings, id1: string, id2: string, request: Request, z: Serializer)
    ensures Retrieve(st, id1, request, z) == Retrieve(st, id2, request, z)
  {
  }

  /**
   * A client that sends back the cookies `createSession` set hands the store
   * its payload unchanged, under whatever payload name is configured.
   */
  lemma RetrieveAfterCreate(st: Settings, id: string, s: Payload, response: seq<Cookie>, z: Serializer)
    requires LeftInverse(z)
    requires UniqueNames(response)
    ensures Retrieve(st, id, Request(Returned(Create(st, id, s, response, z))), z) == Decoded(s)
  {
    var r := Create(st, id, s, response, z);
    var i :| 0 <= i < |r| && r[i] == Cookie(st.payload, z.encode(s));
    ReturnedUnique(r);
    UnserializeSerialize(z, s);
  }
}

=== FILE: file_store.dfy ===
/**
 * The file store: a cache-driven store that insists on the file cache and can
 * sweep expired session files off disk.
 */
module FileStore {
  import opened Wrappers
  import opened Session
  import opened CacheDrivenStore

  const RequiresFileCache: string := "File session driver requires file cache."

  /**
   * The constructor: the cache a new file store keeps, or an invalid-argument
   * error when the cache is not the file cache.
   */
  function New(cache: Cache): (r: Result<Cache, Error>)
    ensures r.Success? <==> cache.driver.FileDriver?
    ensures r.Success? ==> r.value == cache
    ensures r.Failure? ==> r.error == InvalidArgument(RequiresFileCache)
  {
    if cache.driver.FileDriver? then Success(cache) else Failure(InvalidArgument(RequiresFileCache))
  }

  /** `path` names a file directly inside `directory`, as the filesystem's `files` lists them. */
  predicate InDirectory(path: string, directory: string) {
    && |path| > |directory| + 1
    && path[..|directory|] == directory
    && path[|directory|] == '/'
    && '/' !in path[|directory| + 1..]
  }

  /** The files a sweep with cutoff `expiration` deletes. */
  function Expired(files: map<string, int>, directory: string, expiration: int): set<string> {
    set p | p in files && InDirectory(p, directory) && files[p] < expiration
  }

  /** The filesystem a sweep leaves behind: every file but the expired ones, timestamps untouched. */
  function Swept(files: map<string, int>, directory: string, expiration: int): (r: map<string, int>)
    ensures r.Keys == files.Keys - Expired(files, directory, expiration)
    ensures forall p :: p in r ==> r[p] == files[p]
  {
    map p | p in files && p !in Expired(files, directory, expiration) :: files[p]
  }

  /**
   * `sweep($expiration)`: walk the files of the cache's directory and delete
   * each one last modified strictly before the cutoff.
   */
  method Sweep(cache: Cache, expiration: int) returns (r: Cache)
    requires cache.driver.FileDriver?
    ensures r.entries == cache.entries
    ensures r.driver.FileDriver? && r.driver.directory == cache.driver.directory
    ensures forall p :: p in cache.driver.files ==>
              (p in r.driver.files <==> !(InDirectory(p, cache.driver.directory) && cache.driver.files[p] < expiration))
    ensures forall p :: p in r.driver.files ==> p in cache.driver.files && r.driver.files[p] == cache.driver.files[p]
    ensures r.driver.files == Swept(cache.driver.files, cache.driver.directory, expiration)
  {
    var directory := cache.driver.directory;
    var files := cache.driver.files;
    var listed := set p | p in files && InDirectory(p, directory);
    var todo := listed;
    var disk := files;
    while todo != {}
      invariant todo <= listed
      invariant forall p :: p in disk <==> p in files && (p in todo || !(InDirectory(p, directory) && files[p] < expiration))
      invariant forall p :: p in disk ==> disk[p] == files[p]
      decreases todo
    {
      var file :| file in todo;
      if disk[file] < expiration {
        disk := disk - {file};
      }
      todo := todo - {file};
    }
    assert disk == Swept(files, directory, expiration);
    r := cache.(driver := FileDriver(directory, disk));
  }

  /** A file last modified exactly at the cutoff survives: the comparison is strict. */
  lemma SweepKeepsCutoff(files: map<string, int>, directory: string, expiration: int, p: string)
    requires p in files && files[p] >= expiration
    ensures p in Swept(files, directory, expiration)
  {
  }

  /** Only files listed in the cache's directory can be deleted. */
  lemma SweepOnlyTouchesDirectory(files: map<string, int>, directory: string, expiration: int, p: string)
    requires p in files && !InDirectory(p, directory)
    ensures p in Swept(files, directory, expiration) && Swept(files, directory, expiration)[p] == files[p]
  {
  }

  /** A second sweep with the same cutoff finds nothing left to delete. */
  lemma SweepIdempotent(files: map<string, int>, directory: string, expiration: int)
    ensures Expired(Swept(files, directory, expiration), directory, expiration) == {}
    ensures Swept(Swept(files, directory, expiration), directory, expiration) == Swept(files, directory, expiration)
  {
  }

  /** A later cutoff deletes at least what an earlier one does. */
  lemma SweepMonotone(files: map<string, int>, directory: string, e1: int, e2: int)
    requires e1 <= e2
    ensures Expired(files, directory, e1) <= Expired(files, directory, e2)
    ensures Swept(files, directory, e2).Keys <= Swept(files, directory, e1).Keys
  {
  }

  /**
   * Two session files in `dir`, modified at 1 and at 9999999999, swept with
   * cutoff 500: exactly the first is deleted.
   */
  lemma SweepCleansDirectory(dir: string)
    ensures var files := map[dir + "/foo.txt" := 1, dir + "/bar.txt" := 9999999999];
            Swept(files, dir, 500) == map[dir + "/bar.txt" := 9999999999]
  {
  }

  /** A cache that is not the file cache is refused. */
  lemma RequiresFileStoreCache(entries: map<string, Entry>)
    ensures New(Cache(OtherDriver("array"), entries)) == Failure(InvalidArgument(RequiresFileCache))
  {
  }
}

=== FILE: http.dfy ===
/**
 * The slice of the HTTP layer the session code touches: the cookies a request
 * carries and the cookies a response sets.
 */
module Http {

  datatype Cookie = Cookie(name: string, value: string)

  /** The cookies of an incoming request, by name. */
  datatype Request = Request(cookies: map<string, string>)

  /** The names of the cookies set on a response. */
  function Names(cookies: seq<Cookie>): set<string> {
    set i | 0 <= i < |cookies| :: cookies[i].name
  }

  lemma NamesOfConcat(a: seq<Cookie>, b: seq<Cookie>)
    ensures Names(a + b) == Names(a) + Names(b)
  {
    var ab := a + b;
    forall n | n in Names(ab) ensures n in Names(a) + Names(b) {
      var i :| 0 <= i < |ab| && ab[i].name == n;
      if i < |a| { assert a[i] == ab[i]; } else { assert b[i - |a|] == ab[i]; }
    }
    forall n | n in Names(a) + Names(b) ensures n in Names(ab) {
      if n in Names(a) {
        var i :| 0 <= i < |a| && a[i].name == n;
        assert ab[i] == a[i];
      } else {
        var i :| 0 <= i < |b| && b[i].name == n;
        assert ab[|a| + i] == b[i];
      }
    }
  }

  lemma NamesOfOne(c: Cookie)
    ensures Names([c]) == {c.name}
  {
    assert [c][0].name == c.name;
  }

  /** No two cookies of the response share a name. */
  predicate UniqueNames(cookies: seq<Cookie>) {
    forall i, j :: 0 <= i < j < |cookies| ==> cookies[i].name != cookies[j].name
  }

  lemma UniqueNamesCons(x: Cookie, s: seq<Cookie>)
    ensures UniqueNames([x] + s) <==> x.name !in Names(s) && UniqueNames(s)
  {
    var xs := [x] + s;
    if x.name !in Names(s) && UniqueNames(s) {
      forall i, j | 0 <= i < j < |xs| ensures xs[i].name != xs[j].name {
        assert xs[j] == s[j - 1];
        if i > 0 { assert xs[i] == s[i - 1]; }
      }
    }
    if UniqueNames(xs) {
      forall i | 0 <= i < |s| ensures s[i].name != x.name {
        assert xs[0] == x && xs[i + 1] == s[i];
      }
      forall i, j | 0 <= i < j < |s| ensures s[i].name != s[j].name {
        assert xs[i + 1] == s[i] && xs[j + 1] == s[j];
      }
    }
  }

  /**
   * The response's `setCookie`: a cookie replaces, in its place, the cookie of
   * the same name already set, and otherwise goes last.
   */
  function SetCookie(cookies: seq<Cookie>, c: Cookie): (r: seq<Cookie>)
    ensures Names(r) == Names(cookies) + {c.name}
    ensures c.name !in Names(cookies) ==> r == cookies + [c]
  {
    NamesOfOne(c);
    if |cookies| == 0 then [c]
    else
      NamesOfOne(cookies[0]);
      NamesOfConcat([cookies[0]], cookies[1..]);
      assert cookies == [cookies[0]] + cookies[1..];
      if cookies[0].name == c.name then
        NamesOfConcat([c], cookies[1..]);
        [c] + cookies[1..]
      else
        var rest := SetCookie(cookies[1..], c);
        NamesOfConcat([cookies[0]], rest);
        [cookies[0]] + rest
  }

  /**
   * After `setCookie` the cookie is on the response, every cookie of another
   * name is still there, nothing else was added, and names stay unique.
   */
  lemma {:induction false} SetCookieContents(cookies: seq<Cookie>, c: Cookie)
    ensures c in SetCookie(cookies, c)
    ensures forall d :: d in cookies && d.name != c.name ==> d in SetCookie(cookies, c)
    ensures forall d :: d in SetCookie(cookies, c) ==> d == c || d in cookies
    ensures UniqueNames(cookies) ==> UniqueNames(SetCookie(cookies, c))
  {
    if |cookies| > 0 {
      assert cookies == [cookies[0]] + cookies[1..];
      UniqueNamesCons(cookies[0], cookies[1..]);
      if cookies[0].name == c.name {
        UniqueNamesCons(c, cookies[1..]);
      } else {
        var rest := SetCookie(cookies[1..], c);
        SetCookieContents(cookies[1..], c);
        UniqueNamesCons(cookies[0], rest);
      }
    }
  }

  /**
   * The cookies a client sends back after receiving `cookies`, as a request
   * cookie map; where two cookies share a name the later one wins, as a
   * client overwrites a cookie it receives again.
   */
  function Returned(cookies: seq<Cookie>): (jar: map<string, string>)
    ensures jar.Keys == Names(cookies)
    ensures |cookies| > 0 ==> jar[cookies[|cookies| - 1].name] == cookies[|cookies| - 1].value
  {
    if |cookies| == 0 then map[]
    else
      var n := |cookies| - 1;
      NamesOfConcat(cookies[..n], [cookies[n]]);
      NamesOfOne(cookies[n]);
      assert cookies == cookies[..n] + [cookies[n]];
      Returned(cookies[..n])[cookies[n].name := cookies[n].value]
  }

  lemma UniqueNamesPrefix(cookies: seq<Cookie>, n: nat)
    requires UniqueNames(cookies) && n <= |cookies|
    ensures UniqueNames(cookies[..n])
  {
    var pre := cookies[..n];
    forall i, j | 0 <= i < j < |pre| ensures pre[i].name != pre[j].name {
      assert pre[i] == cookies[i] && pre[j] == cookies[j];
    }
  }

  /** With unique names, the client returns every cookie with its own value. */
  lemma {:induction false} ReturnedUnique(cookies: seq<Cookie>)
    requires UniqueNames(cookies)
    ensures forall i :: 0 <= i < |cookies| ==> Returned(cookies)[cookies[i].name] == cookies[i].value
  {
    if |cookies| > 0 {
      var n := |cookies| - 1;
      var pre := cookies[..n];
      UniqueNamesPrefix(cookies, n);
      ReturnedUnique(pre);
      var jar := Returned(cookies);
      assert jar == Returned(pre)[cookies[n].name := cookies[n].value];
      forall i | 0 <= i < n ensures jar[cookies[i].name] == cookies[i].value {
        assert pre[i] == cookies[i];
        assert cookies[i].name != cookies[n].name;
      }
    }
  }

  /** The cookie map a client returns for two differently named cookies. */
  lemma ReturnedPair(a: Cookie, b: Cookie)
    requires a.name != b.name
    ensures Returned([a, b]) == map[a.name := a.value, b.name := b.value]
  {
    assert [a, b][..1] == [a];
    assert [a][..0] == [];
  }
}

=== FILE: lifecycle.dfy ===
/**
 * Properties of whole request cycles: `start` and `finish` of the store over
 * each back-end, and how one request's response feeds the next request.
 */
module Lifecycle {
  import opened Wrappers
  import opened Session
  import opened Http
  import CacheDrivenStore
  import CookieStore
  import opened SessionStore

  /** Exactly at `lifetime` minutes of inactivity a session is live; one second later it is expired. */
  lemma ExpiryBoundary(p: Payload, lifetime: int)
    requires p.lastActivity.Some?
    ensures !IsExpired(p, p.lastActivity.value + lifetime * 60, lifetime)
    ensures IsExpired(p, p.lastActivity.value + lifetime * 60 + 1, lifetime)
  {
  }

  /** Once expired, a payload stays expired as time goes on. */
  lemma ExpiryMonotone(p: Payload, now: int, later: int, lifetime: int)
    requires now <= later && IsExpired(p, now, lifetime)
    ensures IsExpired(p, later, lifetime)
  {
  }

  /**
   * The lifetime `setLifetime` installs is the one `start` judges by: a
   * retrieved payload is adopted exactly when it is live under that lifetime.
   */
  lemma LifetimeDecidesAdoption(st: Store, minutes: int, request: Request, now: int, newId: string, z: Serializer, p: Payload)
    requires IsGeneratedId(newId) && Fetch(st, request, now, z) == Decoded(p)
    ensures var s := SetLifetime(st, minutes);
            Start(s, request, now, newId, z)
              == if IsExpired(p, now, minutes) then Success(s.(existing := false, session := FreshPayload(newId)))
                 else Success(s.(session := p))
  {
    var s := SetLifetime(st, minutes);
    SameCookieName(s, st);
    assert Fetch(s, request, now, z) == Decoded(p);
  }

  /** A payload never stamped by `finish` counts its inactivity from time 0. */
  lemma NeverFinishedPayload(p: Payload, now: int, lifetime: int)
    requires p.lastActivity.None?
    ensures IsExpired(p, now, lifetime) <==> now > lifetime * 60
  {
  }

  /** `updateSession` and `createSession` have the same effect on every back-end. */
  lemma UpdateCallsCreate(b: Backend, w: Write, response: seq<Cookie>, z: Serializer)
    ensures Persist(b, w, response, z) == Persist(b, w.(update := !w.update), response, z)
  {
  }

  /** Whether `finish` updates or creates makes no difference to what it leaves behind. */
  lemma FinishIgnoresExistenceForEffect(st: Store, now: int, response: seq<Cookie>, z: Serializer)
    ensures Finish(st, now, response, z).store.backend == Finish(st.(existing := !st.existing), now, response, z).store.backend
    ensures Finish(st, now, response, z).response == Finish(st.(existing := !st.existing), now, response, z).response
  {
  }

  /**
   * On a store backed by a cache, `finish` writes the stamped payload,
   * serialized, under the session id forever and sets only the session cookie.
   */
  lemma FinishOnCache(st: Store, now: int, z: Serializer)
    requires st.backend.CacheBacked? || st.backend.FileBacked?
    ensures var f := Finish(st, now, [], z);
            var key := SessionId(st).GetOr("");
            && key in f.store.backend.cache.entries
            && f.store.backend.cache.entries[key] == CacheDrivenStore.Entry(z.encode(f.store.session), None)
            && f.store.backend.cache.entries.Keys == st.backend.cache.entries.Keys + {key}
            && f.response == [SessionCookie(f.store)]
  {
  }

  /**
   * On a cookie store, `finish` on an empty response sets two cookies: first
   * the payload, holding the serialized stamped session, then the session
   * cookie.
   */
  lemma FinishOnCookieStore(st: Store, now: int, z: Serializer)
    requires st.backend.CookieBacked?
    requires st.backend.settings.payload != CookieName(st)
    ensures var f := Finish(st, now, [], z);
            && f.response == [Cookie(st.backend.settings.payload, z.encode(f.store.session)), SessionCookie(f.store)]
            && f.store.session == st.session.(lastActivity := Some(now))
            && f.store.backend == st.backend
  {
  }

  /**
   * The payload cookie `finish` sets on a cookie store decodes to the session
   * stamped with `now`.
   */
  lemma CookieFinishPayloadDecodes(st: Store, now: int, z: Serializer)
    requires st.backend.CookieBacked? && LeftInverse(z)
    requires st.backend.settings.payload != CookieName(st)
    ensures var f := Finish(st, now, [], z);
            && |f.response| == 2
            && f.response[0].name == st.backend.settings.payload
            && Unserialize(z, Some(f.response[0].value)) == Decoded(st.session.(lastActivity := Some(now)))
  {
  }

  /**
   * On a cookie store, a request that carries a session cookie and a payload
   * cookie holding a live serialized payload starts with that payload, as is.
   */
  lemma StartAdoptsCookiePayload(st: Store, request: Request, p: Payload, now: int, newId: string, z: Serializer)
    requires st.backend.CookieBacked? && LeftInverse(z) && IsGeneratedId(newId)
    requires CookieName(st) in request.cookies
    requires st.backend.settings.payload in request.cookies
    requires request.cookies[st.backend.settings.payload] == z.encode(p)
    requires !IsExpired(p, now, st.lifetime)
    ensures Start(st, request, now, newId, z) == Success(st.(session := p))
  {
  }

  /** The session cookie's name depends on the cookie options alone. */
  lemma SameCookieName(a: Store, b: Store)
    requires a.cookie == b.cookie
    ensures CookieName(a) == CookieName(b)
  {
    assert GetCookieOption(a, "name") == GetCookieOption(b, "name");
  }

  /**
   * On a cookie store, a payload cookie holding a serialized `null` reads as
   * no session at all: `start` begins a fresh one that does not yet exist.
   */
  lemma NullPayloadCookieStartsFresh(st: Store, request: Request, now: int, newId: string, z: Serializer)
    requires st.backend.CookieBacked? && IsGeneratedId(newId)
    requires CookieName(st) in request.cookies
    requires st.backend.settings.payload in request.cookies
    requires z.decode(request.cookies[st.backend.settings.payload]) == Missing
    ensures Start(st, request, now, newId, z) == Success(st.(existing := false, session := FreshPayload(newId)))
  {
  }

  /**
   * The cookies a client sends back after `finish` on a cookie store: the
   * payload cookie holding the serialized stamped session, and the session id.
   */
  lemma CookieFinishReturns(st: Store, now: int, z: Serializer)
    requires st.backend.CookieBacked?
    requires st.backend.settings.payload != CookieName(st)
    ensures var f := Finish(st, now, [], z);
            Returned(f.response) == map[st.backend.settings.payload := z.encode(f.store.session), CookieName(st) := SessionId(st).GetOr("")]
  {
    var f := Finish(st, now, [], z);
    FinishOnCookieStore(st, now, z);
    SameCookieName(f.store, st);
    ReturnedPair(f.response[0], f.response[1]);
  }

  /**
   * A cookie-store session survives a round trip through the client: the
   * next request, sending back the cookies `finish` set, starts with exactly
   * the stored state, provided it comes within the lifetime and the two
   * cookies have different names. The next request runs on a newly
   * constructed store, which takes the session to exist.
   */
  lemma CookieSessionRoundTrip(st: Store, now: int, later: int, newId: string, z: Serializer)
    requires st.backend.CookieBacked? && LeftInverse(z) && IsGeneratedId(newId)
    requires st.backend.settings.payload != CookieName(st)
    requires later - now <= st.lifetime * 60
    ensures var f := Finish(st, now, [], z);
            var next := Store(f.store.session, true, st.lifetime, st.cookie, st.backend);
            Start(next, Request(Returned(f.response)), later, newId, z) == Success(next)
  {
    var f := Finish(st, now, [], z);
    var next := Store(f.store.session, true, st.lifetime, st.cookie, st.backend);
    CookieFinishReturns(st, now, z);
    SameCookieName(next, st);
    StartAdoptsCookiePayload(next, Request(Returned(f.response)), next.session, later, newId, z);
  }

  /**
   * When the payload cookie is named like the session cookie, the session
   * cookie replaces it and the response carries no payload at all.
   */
  lemma CookieNameClash(st: Store, now: int, z: Serializer)
    requires st.backend.CookieBacked?
    requires st.backend.settings.payload == CookieName(st)
    ensures Finish(st, now, [], z).response == [SessionCookie(Finish(st, now, [], z).store)]
  {
  }

  /**
   * `start` asks a cache-driven store for the entry keyed by the session
   * cookie's value; since the entry comes back still serialized, a live entry
   * fails `isExpired`'s array check and only a miss starts a fresh session.
   */
  lemma StartLooksUpCookieValue(st: Store, request: Request, now: int, newId: string, z: Serializer)
    requires st.backend.CacheBacked? && IsGeneratedId(newId)
    requires CookieName(st) in request.cookies
    ensures var hit := CacheDrivenStore.Get(st.backend.cache, request.cookies[CookieName(st)], now);
            && (hit.Some? ==> Start(st, request, now, newId, z) == Failure(NotAnArray(Raw(hit.value))))
            && (hit.None? ==> Start(st, request, now, newId, z) == Success(st.(existing := false, session := FreshPayload(newId))))
  {
  }

  /**
   * The cache-driven store cannot read back its own sessions: the request
   * after a `finish` makes `start` fail on the serialized string it retrieves.
   */
  lemma CacheStartAfterFinishFails(st: Store, now: int, later: int, newId: string, z: Serializer)
    requires (st.backend.CacheBacked? || st.backend.FileBacked?) && IsGeneratedId(newId)
    ensures var f := Finish(st, now, [], z);
            Start(f.store, Request(Returned(f.response)), later, newId, z) == Failure(NotAnArray(Raw(z.encode(f.store.session))))
  {
  }

  /**
   * After `regenerateSession`, `finish` creates the payload under the new id
   * and sends the new id in the session cookie.
   */
  lemma RegenerateThenFinishCreates(st: Store, newId: string, now: int, z: Serializer)
    requires IsGeneratedId(newId)
    ensures var f := Finish(RegenerateSession(st, newId).0, now, [], z);
            && !f.write.update
            && f.write.id == Some(newId)
            && f.write.payload.data == st.session.data
            && SessionCookie(f.store).value == newId
  {
  }
}

=== FILE: session.dfy ===
/** The session payload and the values that travel with it. */
module Session {
  import opened Wrappers

  /** A PHP value held in the session's data array or in the cookie options. */
  datatype Value =
    | Null
    | Bool(b: bool)
    | Int(i: int)
    | Str(s: string)
    | Arr(entries: map<string, Value>)

  /** Keys of the two flash buckets kept inside the payload's data. */
  const OldFlash: string := ":old:"
  const NewFlash: string := ":new:"

  /**
   * The session payload array, projected onto its entries 'id', 'data' and
   * 'last_activity'. A missing 'id' or 'last_activity' is `None`; a missing
   * 'data' reads as the empty array; other top-level entries are not kept.
   */
  datatype Payload = Payload(id: Option<string>, data: map<string, Value>, lastActivity: Option<int>)

  /** The payload of a store that has not been started: an array with no entries. */
  const Unset: Payload := Payload(None, map[], None)

  /** The data of a fresh payload: both flash buckets, empty, and nothing else. */
  const EmptyFlash: map<string, Value> := map[OldFlash := Arr(map[]), NewFlash := Arr(map[])]

  /** A fresh payload under `id`: no stored data and never persisted. */
  predicate IsFresh(p: Payload, id: string) {
    p.id == Some(id) && p.data == EmptyFlash && p.lastActivity.None?
  }

  /**
   * What a back-end's `retrieveSession` hands back, and what `unserialize`
   * yields, as the PHP value it is: `null`, `false` (also the answer for a
   * string that does not unserialize), a string, or an array.
   */
  datatype Fetched =
    | Missing
    | Unreadable
    | Raw(text: string)
    | Decoded(payload: Payload)

  /**
   * PHP's `serialize` of a payload and `unserialize` of a string, as the two
   * functions a store is given. `decode` answers with the PHP value the
   * string holds: `serialize(null)` decodes to `Missing`, a string that is
   * no serialization at all to `Unreadable`.
   */
  datatype Serializer = Serializer(encode: Payload -> string, decode: string -> Fetched)

  /** `unserialize` undoes `serialize`. Only the round-trip properties rely on it. */
  ghost predicate LeftInverse(z: Serializer) {
    forall p :: z.decode(z.encode(p)) == Decoded(p)
  }

  /**
   * `unserialize` of a cookie value that may be absent: `unserialize(null)` is
   * `false`, and a present value yields whatever PHP value it holds,
   * `null` included.
   */
  function Unserialize(z: Serializer, text: Option<string>): (r: Fetched)
    ensures text.None? ==> r == Unreadable
    ensures text.Some? ==> r == z.decode(text.value)
    ensures r.Missing? <==> text.Some? && z.decode(text.value).Missing?
  {
    match text
    case None => Unreadable
    case Some(t) => z.decode(t)
  }

  lemma UnserializeSerialize(z: Serializer, p: Payload)
    requires LeftInverse(z)
    ensures Unserialize(z, Some(z.encode(p))) == Decoded(p)
  {
  }

  /** A session id as `createSessionID` produces it: a SHA-1 digest in 40 lower-case hex digits. */
  predicate IsGeneratedId(s: string) {
    |s| == 40 && forall i :: 0 <= i < |s| ==> s[i] in "0123456789abcdef"
  }

  /** The errors the session code raises. */
  datatype Error =
    | InvalidArgument(message: string)
      // `isExpired` declares an `array` parameter; PHP refuses any other non-null value
    | NotAnArray(given: Fetched)
}

=== FILE: store.dfy ===
/**
 * The abstract session store: loads or creates the payload at the start of a
 * request and persists it, through the concrete back-end, at the end.
 */
module SessionStore {
  import opened Wrappers
  import opened Session
  import opened Http
  import CacheDrivenStore
  import CookieStore
  import FileStore

  /** The concrete store class, with the state that back-end keeps of its own. */
  datatype Backend =
    | CacheBacked(cache: CacheDrivenStore.Cache)
    | CookieBacked(settings: CookieStore.Settings)
      // a file store is the cache-driven store over the file cache, plus `sweep`
    | FileBacked(cache: CacheDrivenStore.Cache)

  /**
   * The store's state: the current payload, whether it already exists in
   * storage, the lifetime in minutes and the session cookie's options.
   */
  datatype Store = Store(session: Payload, existing: bool, lifetime: int, cookie: map<string, Value>, backend: Backend)

  const DefaultLifetime: int := 120
  const DefaultCookieName: string := "illuminate_session"

  /** A store as constructed, before `start`. */
  function New(backend: Backend): (r: Store)
    ensures r.existing && r.lifetime == DefaultLifetime
    ensures GetCookieOption(r, "name") == Str(DefaultCookieName)
    ensures forall o :: o != "name" ==> GetCookieOption(r, o) == Null
    ensures r.session == Unset && r.backend == backend
  {
    Store(Unset, true, DefaultLifetime, map["name" := Str(DefaultCookieName)], backend)
  }

  /** A file store, or the constructor's error when the cache is not the file cache. */
  function NewFileStore(cache: CacheDrivenStore.Cache): (r: Result<Store, Error>)
    ensures r.Success? <==> cache.driver.FileDriver?
    ensures r.Success? ==> r.value == New(FileBacked(cache))
    ensures r.Failure? ==> r.error == InvalidArgument(FileStore.RequiresFileCache)
  {
    match FileStore.New(cache)
    case Success(c) => Success(New(FileBacked(c)))
    case Failure(e) => Failure(e)
  }

  /** `getCookieOption`: an option never set reads as `null`. */
  function GetCookieOption(st: Store, option: string): (r: Value)
    ensures option in st.cookie ==> r == st.cookie[option]
    ensures option !in st.cookie ==> r == Null
  {
    if option in st.cookie then st.cookie[option] else Null
  }

  /** `setCookieOption`. */
  function SetCookieOption(st: Store, option: string, value: Value): (r: Store)
    ensures GetCookieOption(r, option) == value
    ensures forall o :: o != option ==> GetCookieOption(r, o) == GetCookieOption(st, o)
    ensures r.session == st.session && r.existing == st.existing && r.lifetime == st.lifetime && r.backend == st.backend
  {
    st.(cookie := st.cookie[option := value])
  }

  /** `setLifetime`. */
  function SetLifetime(st: Store, minutes: int): (r: Store)
    ensures r.lifetime == minutes
    ensures r.session == st.session && r.existing == st.existing && r.cookie == st.cookie && r.backend == st.backend
  {
    st.(lifetime := minutes)
  }

  /** `setPayloadName` of a cookie store. */
  function SetPayloadName(st: Store, name: string): (r: Store)
    requires st.backend.CookieBacked?
    ensures r.backend == CookieBacked(CookieStore.Settings(name))
    ensures r.session == st.session && r.existing == st.existing && r.lifetime == st.lifetime && r.cookie == st.cookie
  {
    st.(backend := CookieBacked(CookieStore.SetPayloadName(st.backend.settings, name)))
  }

  /**
   * The name of the session cookie. A 'name' option that is not a string is
   * read as the empty key.
   */
  function CookieName(st: Store): (r: string)
    ensures GetCookieOption(st, "name").Str? ==> r == GetCookieOption(st, "name").s
    ensures !GetCookieOption(st, "name").Str? ==> r == ""
  {
    match GetCookieOption(st, "name")
    case Str(n) => n
    case _ => ""
  }

  /** The session id the request's session cookie carries, if it has one. */
  function CookieId(st: Store, request: Request): Option<string> {
    if CookieName(st) in request.cookies then Some(request.cookies[CookieName(st)]) else None
  }

  /** `createSession()`: a fresh payload with a new id and empty flash buckets. */
  function FreshPayload(newId: string): (r: Payload)
    requires IsGeneratedId(newId)
    ensures IsFresh(r, newId)
    ensures r.id.Some? && |r.id.value| == 40
  {
    Payload(Some(newId), EmptyFlash, None)
  }

  /**
   * `isExpired`: more than `lifetime` minutes have passed since the last
   * activity. A payload without 'last_activity' reads it as 0.
   */
  function IsExpired(p: Payload, now: int, lifetime: int): (r: bool)
    ensures p.lastActivity.Some? ==> (r <==> now > p.lastActivity.value + lifetime * 60)
    ensures p.lastActivity.None? ==> (r <==> now > lifetime * 60)
  {
    now - p.lastActivity.GetOr(0) > lifetime * 60
  }

  /** The abstract `retrieveSession`, answered by the concrete back-end. */
  function Retrieve(b: Backend, id: string, request: Request, now: int, z: Serializer): (r: Fetched)
    ensures b.CookieBacked? && b.settings.payload !in request.cookies ==> r == Unreadable
    ensures b.CookieBacked? && b.settings.payload in request.cookies ==> r == z.decode(request.cookies[b.settings.payload])
    ensures !b.CookieBacked? ==> r.Missing? || r.Raw?
    ensures !b.CookieBacked? && id !in b.cache.entries ==> r == Missing
    ensures !b.CookieBacked? && id in b.cache.entries && b.cache.entries[id].expires.None? ==> r == Raw(b.cache.entries[id].value)
    ensures !b.CookieBacked? && r.Raw? ==> id in b.cache.entries && r.text == b.cache.entries[id].value
  {
    match b
    case CacheBacked(c) => CacheDrivenStore.Retrieve(c, id, now)
    case FileBacked(c) => CacheDrivenStore.Retrieve(c, id, now)
    case CookieBacked(s) => CookieStore.Retrieve(s, id, request, z)
  }

  /** What `start` obtains: nothing without an id cookie, else the back-end's answer for that id. */
  function Fetch(st: Store, request: Request, now: int, z: Serializer): (r: Fetched)
    ensures CookieId(st, request).None? ==> r.Missing?
    ensures CookieId(st, request).Some? ==> r == Retrieve(st.backend, CookieId(st, request).value, request, now, z)
  {
    match CookieId(st, request)
    case None => Missing
    case Some(id) => Retrieve(st.backend, id, request, now, z)
  }

  /**
   * `start`: adopt the stored payload when there is a live one; otherwise
   * install a fresh payload and mark the session as not yet existing. A
   * retrieved value that is neither null nor an array stops at `isExpired`.
   */
  function Start(st: Store, request: Request, now: int, newId: string, z: Serializer): (r: Result<Store, Error>)
    requires IsGeneratedId(newId)
    ensures r.Success? ==> r.value.lifetime == st.lifetime && r.value.cookie == st.cookie && r.value.backend == st.backend
    ensures CookieId(st, request).None? ==> r.Success? && !r.value.existing && IsFresh(r.value.session, newId)
    ensures var f := Fetch(st, request, now, z);
            f.Decoded? && !IsExpired(f.payload, now, st.lifetime) ==>
              r.Success? && r.value.session == f.payload && r.value.existing == st.existing
    ensures var f := Fetch(st, request, now, z);
            f.Missing? || (f.Decoded? && IsExpired(f.payload, now, st.lifetime)) ==>
              r.Success? && !r.value.existing && IsFresh(r.value.session, newId)
    ensures var f := Fetch(st, request, now, z);
            r.Failure? <==> f.Raw? || f.Unreadable?
    ensures r.Failure? ==> r.error == NotAnArray(Fetch(st, request, now, z))
  {
    match Fetch(st, request, now, z)
    case Missing => Success(st.(existing := false, session := FreshPayload(newId)))
    case Decoded(p) =>
      if IsExpired(p, now, st.lifetime) then Success(st.(existing := false, session := FreshPayload(newId)))
      else Success(st.(session := p))
    case other => Failure(NotAnArray(other))
  }

  /** `getSessionID`: the payload's id, or `null` when it has none. */
  function SessionId(st: Store): (r: Option<string>)
    ensures r.Some? <==> st.session.id.Some?
    ensures r.Some? ==> r.value == st.session.id.value
  {
    st.session.id
  }

  /** The one persistence call `finish` makes: an update or a create, with its key and payload. */
  datatype Write = Write(update: bool, id: Option<string>, payload: Payload)

  /**
   * The effect of a persistence call on the back-end and the response. A null
   * id is used as the empty key, as PHP does with array keys.
   */
  function Persist(b: Backend, w: Write, response: seq<Cookie>, z: Serializer): (r: (Backend, seq<Cookie>))
    ensures r.0.CookieBacked? == b.CookieBacked? && r.0.CacheBacked? == b.CacheBacked?
    ensures !b.CookieBacked? ==> r.1 == response
    ensures !b.CookieBacked? ==>
              && r.0.cache.driver == b.cache.driver
              && r.0.cache.entries == b.cache.entries[w.id.GetOr("") := CacheDrivenStore.Entry(z.encode(w.payload), None)]
    ensures b.CookieBacked? ==> r.0 == b
    ensures b.CookieBacked? ==> r.1 == SetCookie(response, Cookie(b.settings.payload, z.encode(w.payload)))
  {
    var key := w.id.GetOr("");
    match b
    case CacheBacked(c) =>
      var c' := if w.update then CacheDrivenStore.Update(c, key, w.payload, z) else CacheDrivenStore.Create(c, key, w.payload, z);
      (CacheBacked(c'), response)
    case FileBacked(c) =>
      var c' := if w.update then CacheDrivenStore.Update(c, key, w.payload, z) else CacheDrivenStore.Create(c, key, w.payload, z);
      (FileBacked(c'), response)
    case CookieBacked(s) =>
      var cookies := if w.update then CookieStore.Update(s, key, w.payload, response, z) else CookieStore.Create(s, key, w.payload, response, z);
      (b, cookies)
  }

  /** The session cookie `finish` sets last: the cookie name and the session id. */
  function SessionCookie(st: Store): (r: Cookie)
    ensures r.name == CookieName(st)
    ensures SessionId(st).Some? ==> r.value == SessionId(st).value
    ensures SessionId(st).None? ==> r.value == ""
  {
    Cookie(CookieName(st), SessionId(st).GetOr(""))
  }

  /** The outcome of `finish`: the store after it, the response's cookies, and the persistence call made. */
  datatype Finished = Finished(store: Store, response: seq<Cookie>, write: Write)

  /**
   * `finish`: stamp the last activity, persist the payload under its id
   * through `updateSession` if it exists and `createSession` if not, then set
   * the session cookie on the response.
   */
  function Finish(st: Store, now: int, response: seq<Cookie>, z: Serializer): (r: Finished)
    ensures r.store.session.lastActivity == Some(now)
    ensures r.store.session.id == st.session.id && r.store.session.data == st.session.data
    ensures r.store.existing == st.existing && r.store.lifetime == st.lifetime && r.store.cookie == st.cookie
    ensures r.write.update <==> st.existing
    ensures r.write.id == SessionId(st) && r.write.payload == r.store.session
    ensures r.store.backend == Persist(st.backend, r.write, response, z).0
    ensures r.response == SetCookie(Persist(st.backend, r.write, response, z).1, SessionCookie(r.store))
  {
    var session := st.session.(lastActivity := Some(now));
    var write := Write(st.existing, SessionId(st), session);
    var persisted := Persist(st.backend, write, response, z);
    var done := st.(session := session, backend := persisted.0);
    Finished(done, SetCookie(persisted.1, SessionCookie(done)), write)
  }

  /**
   * `regenerateSession`: a new id for the same payload, which must now be
   * created rather than updated; the new id is returned.
   */
  function RegenerateSession(st: Store, newId: string): (r: (Store, string))
    requires IsGeneratedId(newId)
    ensures r.1 == newId && SessionId(r.0) == Some(newId) && |r.1| == 40
    ensures !r.0.existing
    ensures r.0.session.data == st.session.data && r.0.session.lastActivity == st.session.lastActivity
    ensures r.0.lifetime == st.lifetime && r.0.cookie == st.cookie && r.0.backend == st.backend
  {
    (st.(existing := false, session := st.session.(id := Some(newId))), newId)
  }
}

=== FILE: wrappers.dfy ===
/** Optional values and outcomes that may fail, used by every session module. */
module Wrappers {

  /** A value that may be absent: PHP's `null` on the other side. */
  datatype Option<+T> = None | Some(value: T) {

    /** The wrapped value, or `default` when there is none. */
    function GetOr(default: T): T {
      match this
      case Some(v) => v
      case None => default
    }
  }

  /** The outcome of an operation that may fail with an error of type `E`. */
  datatype Result<+R, +E> = Success(value: R) | Failure(error: E)
}
